=== FILE: README.md ===
# monotime: monotonic timestamp arithmetic in Dafny

This project models the timestamp value type of the Go package `monotime`.
A timestamp is a signed 64-bit count of nanoseconds since an arbitrary zero
that the system picks at boot. The package defines it twice, as `MonoTime` in
main.go and as `Time` in mono.go. Each copy has four operations. `Add`,
`Round` and `Truncate` take a Go `time.Duration` (also a signed 64-bit
nanosecond count); `Sub` takes a second timestamp and returns a
`time.Duration`:

- `Add(d)` computes `t + d`.
- `Sub(u)` computes `t - u`.
- `Round(d)` snaps `t` to a multiple of `d`. It takes `r = t % d`, then returns `t - r` when `r*2 <= d` and `t + (d - r)` otherwise.
- `Truncate(d)` computes `t - t % d`.

`Round` and `Truncate` return `t` unchanged when `d <= 0`.

All arithmetic is Go's. Signed 64-bit operations wrap around in two's
complement. `%` truncates toward zero, so the remainder takes the sign of the
dividend. Dafny's integers are unbounded and its `%` is Euclidean, so module
`GoInt` (go_int.dfy) writes out both behaviours:

- `Int64` is the subset of `int` that fits in 64 bits.
- `Wrap` reduces an exact result to the 64-bit value Go stores.
- `Neg` is Go's unary minus.
- `Rem` is Go's `%`.

Modules:

- `GoInt` holds the 64-bit arithmetic and the divisibility facts the proofs use.
- `MonoTime` (monotime.dfy) models main.go's `MonoTime`. Every property is proved here.
- `Time` (time.dfy) models mono.go's `Time`, written out separately. `Time.AgreesWithMonoTime` proves that each of its operations equals the `MonoTime` operation of the same name on every input. The `Time` properties are carried over through that lemma.
- `Intended` (intended.dfy) holds `Round` and `Truncate` as their doc comments describe them. It also holds the inputs on which the code and those comments disagree (see Findings).

The model follows the code wherever the code and its documentation differ:

- At an exact halfway point with `t > 0`, `Round` returns the lower multiple. The doc comment says halfway values round up. A negative halfway value goes toward zero, which is the upper multiple, as documented.
- For negative `t`, `Truncate` moves toward zero, and so does `Round` when `d <= 2^62`. For larger `d` the doubled remainder can wrap, and `Round` can then cross zero (see Findings).
- The package defines no `Round` or `Truncate` on its duration type, so none are modelled.

## Model

| member | source | states |
|---|---|---|
| GoInt.Wrap | main.go:17 | The stored 64-bit value has the same two's-complement bit pattern as the exact result, and equals the exact result whenever that fits in 64 bits |
| GoInt.WrapUnique | main.go:17 | A representable value with the same bit pattern as `x` is exactly `Wrap(x)`, so the wrapped result is unique |
| GoInt.Neg | main.go:41 | Go's `-x` is exact except for `math.MinInt64`, which negates to itself |
| GoInt.Rem | main.go:39 | Go's `t % d` is smaller than `d` in magnitude and no larger than `t`. It has the sign of `t`, and `t - r` is a multiple of `d` |
| GoInt.RemUnique | main.go:39 | Those conditions determine the remainder: it is the one the Go language specification defines for truncated division |
| GoInt.RemOfMultiple | main.go:57 | A multiple of `d` leaves remainder 0 |
| MonoTime.Add | main.go:15-18 | `t.Add(d)` has the bit pattern of `t + d` and equals it when there is no overflow |
| MonoTime.Sub | main.go:20-24 | `t.Sub(u)` has the bit pattern of `t - u` and equals it when there is no overflow |
| MonoTime.Round | main.go:26-44 | `d <= 0` returns `t` unchanged. For `d > 0` the result is `Truncate(t, d)` or, up to wrap-around, the next multiple `Truncate(t, d) + d` |
| MonoTime.Truncate | main.go:46-58 | `d <= 0` returns `t` unchanged. For `d > 0` the result is a multiple of `d` between 0 and `t`, less than `d` away from `t`, so it never wraps |
| MonoTime.AddSubInverse | main.go:15-24 | `t.Add(d).Sub(t) == d` for every pair of 64-bit values, overflow included |
| MonoTime.SubAddInverse | main.go:15-24 | `t.Add(u.Sub(t)) == u` for every pair of 64-bit values, overflow included |
| MonoTime.AddEach | main.go:15-18 | Advancing `t` by a series of durations with successive `Add`s gives the single wrapped sum of `t` and all the durations, however often the intermediate sums wrap |
| MonoTime.ElapsedIsTotal | main.go:15-24 | `Sub` measures the time elapsed over a series of `Add`s as the wrapped total of the durations, or exactly the total when that fits in 64 bits |
| MonoTime.AddNegIsSub | main.go:20-21 | As the Sub comment advises, `t.Add(-d)` is the wrapped `t - d`, including for `d == math.MinInt64` |
| MonoTime.TruncateIsClosestTowardZero | main.go:53-58 | No multiple of `d` lies strictly between `Truncate(t, d)` and `t`. For `t >= 0` it is the greatest multiple at or below `t`. For `t <= 0` it is the least multiple at or above `t` |
| MonoTime.TruncateIdempotent | main.go:53-58 | `Truncate(Truncate(t, d), d) == Truncate(t, d)` for every `t` and `d` |
| MonoTime.RoundNonNegative | main.go:34-44 | For `d > 0`, `t >= 0` and `t + d` representable, `Round` returns a multiple of `d` at most `d/2` from `t`. It returns `Truncate` when `2*(t%d) <= d`, so halfway goes to the lower multiple. Otherwise it returns `Truncate + d` |
| MonoTime.RoundIsNearest | main.go:26-44 | Under the same conditions, no multiple of `d` is closer to `t` than `Round(t, d)` |
| MonoTime.RoundViaTruncate | main.go:38-57 | For `0 < d <= 2^62`, `Round` is `Truncate` when `2*(t%d) <= d` and otherwise the wrapped `Truncate + d`, for every `t` |
| MonoTime.RoundNegativeTowardZero | main.go:38-41 | For `t < 0` and `0 < d <= 2^62`, `Round == Truncate`, which lies between `t` and 0 |
| MonoTime.RoundWrapsAtTop | main.go:43 | Rounding `math.MaxInt64` up to a multiple of 2^62 wraps to `math.MinInt64` |
| Time.Add | mono.go:14-17 | `t.Add(d)` has the bit pattern of `t + d` and equals it when there is no overflow |
| Time.Sub | mono.go:19-23 | `t.Sub(u)` has the bit pattern of `t - u` and equals it when there is no overflow |
| Time.Round | mono.go:33-36 | `d <= 0` returns `t` unchanged |
| Time.Truncate | mono.go:52-55 | `d <= 0` returns `t` unchanged |
| Time.AgreesWithMonoTime | mono.go:15-57 | mono.go's `Add`, `Sub`, `Round` and `Truncate` equal main.go's on every input |
| Time.AddSubInverse | mono.go:14-23 | `t.Add(d).Sub(t) == d` for every pair of 64-bit values |
| Time.SubAddInverse | mono.go:14-23 | `t.Add(u.Sub(t)) == u` for every pair of 64-bit values |
| Time.TruncateBounds | mono.go:52-57 | For `d > 0`, the result is a multiple of `d` between 0 and `t`, less than `d` away, with no multiple strictly between it and `t`. It rounds down only when `t >= 0` |
| Time.TruncateIdempotent | mono.go:52-57 | Truncating twice equals truncating once |
| Time.RoundNonNegative | mono.go:33-43 | For `d > 0`, `t >= 0` and `t + d` representable, `Round` returns a nearest multiple of `d`, at most `d/2` away. Halfway goes to the lower multiple |
| Intended.FloorRem | main.go:39 | The remainder adjusted into `[0, d)`, with `t - r` a multiple of `d` |
| Intended.Truncate | main.go:46-47 | Documented truncation. `d <= 0` returns `t` unchanged |
| Intended.Round | main.go:26-28 | Documented rounding. `d <= 0` returns `t` unchanged |
| Intended.TruncateRoundsDown | main.go:46-47 | When representable, the corrected `Truncate` is the greatest multiple of `d` at or below `t`, negative `t` included |
| Intended.RoundNearestHalfUp | main.go:26-28 | Whenever the multiple it picks is representable, the corrected `Round` is a nearest multiple, at most `d/2` away. Of two equally near multiples it picks the upper one |
| Intended.AgreesWithCodeOnNonNegative | main.go:34-58 | For `t >= 0` the corrected `Truncate` equals the code's. The corrected `Round` also equals the code's, except at exact halfway points and for remainders of 2^62 or more |
| Intended.HalfwayRoundsDown | main.go:40-41 | The code rounds `5` to `0` for `d = 10`. The documented halfway-up rounding gives `10` |
| Intended.NegativeHalfwayRoundsUp | main.go:39-41 | For `t = -5` and `d = 10`, Go's `%` gives -5 and the code returns `0`, the upper multiple, as the documented rounding does |
| Intended.DoubledRemainderWraps | main.go:39-41 | For `t = MaxInt64 - 1` and `d = MaxInt64`, `r*2` wraps to -4 and the code returns 0. The nearest multiple is `MaxInt64` |
| Intended.NegativeDoubledRemainderWraps | main.go:39-43 | For `t = -(2^62 + 1)` and `d = 2^62 + 2`, `r*2` wraps to `2^63 - 2`, above `d`, and the code returns `d`, across zero. The nearest multiple is `-d` |
| Intended.NegativeRoundsTowardZero | main.go:39-41 | The code rounds `-9` to `0` for `d = 10`. The nearest multiple is `-10` |
| Intended.NegativeTruncatesTowardZero | main.go:57 | The code truncates `-9` to `0` for `d = 10`, which is above `t`. Rounding down gives `-10` |

## Left out

- `Now` (mono.go:62-70) is left out. It reads `CLOCK_MONOTONIC` through a system call and panics on failure. That is operating-system I/O with no logic to model.
- The `Ticker` struct, `Stop` and `start` (main.go:60-101) are left out. They are about concurrency: a goroutine, an unbuffered channel, a mutex, a once-guard and a blocking read on a timer file descriptor.
- The decoding of the expiration count (main.go:94) is left out. It reinterprets eight bytes in host byte order, so there is no portable contract to state.
- `Reset` and `NewTicker` (main.go:103-110) are left out. They only forward the sentinel `-1` to `ResetAt` and `NewTickerAt`.
- `ResetAt` and `NewTickerAt` (main.go:106, 112) are left out. They are declared without a body.
- MonoTime.RoundNonNegative: states the nearest-multiple property only for `t >= 0` with `t + d` representable, because the code does not round to the nearest multiple for negative `t` or when `r*2` or the result wraps (see Findings). The condition `t + d <= math.MaxInt64` is sufficient, not necessary: near the top a nearest multiple below `t` is still found.
- MonoTime.RoundIsNearest: same side conditions as `MonoTime.RoundNonNegative`, for the same reason (sufficient, not necessary).
- Time.RoundNonNegative: same side conditions as `MonoTime.RoundNonNegative`, for the same reason (sufficient, not necessary).
- MonoTime.RoundViaTruncate: assumes `d <= 2^62` so that the doubled remainder cannot wrap. Above that bound the doubled remainder can wrap for either sign of `t`, as `Intended.DoubledRemainderWraps` (for `t >= 0`) and `Intended.NegativeDoubledRemainderWraps` (for `t < 0`) show.
- MonoTime.RoundNegativeTowardZero: assumes `d <= 2^62` for the same reason.
- Intended.TruncateRoundsDown: holds only when the multiple below `t` is representable. Otherwise no 64-bit result can meet the documented promise.
- Intended.RoundNearestHalfUp: holds whenever the multiple it picks is representable: the one below `t` when the remainder is less than half of `d`, the one above otherwise. When that multiple does not fit, no 64-bit result can be it.

## Findings

| source | as written | input that shows it | evidently intended | confidence | as-written member | corrected member |
|---|---|---|---|---|---|---|
| main.go:40 | For `t > 0`, `r*2 <= d` sends an exact halfway value (`r*2 == d`) to `t - r`, the lower multiple. For `t < 0` the halfway remainder is `-d/2`, and `t - r` is the upper multiple, as documented. mono.go:39 is the same | `t = 5`, `d = 10` gives `0` | Halfway rounds up, as the doc comment at main.go:26-27 says, giving `10` | not executed; the code and comment certainly disagree, and which one is meant is likely but not certain | Intended.HalfwayRoundsDown | Intended.Round |
| main.go:40 | `r*2` is computed in wrapping `int64` arithmetic, so it wraps for remainders of 2^62 or more. mono.go:39 is the same | `t = 2^63 - 2`, `d = 2^63 - 1`: `r*2` wraps to -4 and the result is `0` | The nearest multiple `2^63 - 1`, with the comparison done without overflow | not executed; high | Intended.DoubledRemainderWraps | Intended.Round |
| main.go:40 | The same wrap for remainders below -2^62: `r*2` wraps to a positive value. When that value exceeds `d`, main.go:43 adds `d - r` and the result crosses zero; otherwise main.go:41 moves toward zero as for small `d`. mono.go:39 is the same | `t = -(2^62 + 1)`, `d = 2^62 + 2`: `r*2` wraps to `2^63 - 2` and the result is `d` | The nearest multiple `-d`, 1 away | not executed; high | Intended.NegativeDoubledRemainderWraps | Intended.Round |
| main.go:39 | Go's `%` gives a non-positive remainder for negative `t`, so for `d <= 2^62` `Round` always moves toward zero. mono.go:38 is the same | `t = -9`, `d = 10` gives `0` | The nearest multiple `-10`, as "round to the nearest multiple" promises | not executed; medium, because monotonic times are non-negative in practice | Intended.NegativeRoundsTowardZero | Intended.Round |
| main.go:57 | `t - t % d` moves negative `t` up toward zero. mono.go:56 is the same | `t = -9`, `d = 10` gives `0` | Rounding down, as the doc comment at main.go:46 says, giving `-10` | not executed; low to medium, because monotonic times are non-negative in practice | Intended.NegativeTruncatesTowardZero | Intended.Truncate |

`Intended.RoundNearestHalfUp` and `Intended.TruncateRoundsDown` prove the
documented properties of the corrected definitions.
`Intended.AgreesWithCodeOnNonNegative` shows that the corrected definitions
change only the inputs listed above. The rest of the model keeps the code as
written, because nothing in it consumes `Round` or `Truncate`.

=== FILE: go_int.dfy ===
/**
 Go's signed 64-bit integer arithmetic over Dafny's unbounded `int`.

 Go's `+`, `-`, unary `-` and `*` on `int64` wrap around in two's complement,
 and Go's `%` truncates toward zero, so its remainder takes the sign of the
 dividend. Both are written out explicitly here: `Wrap` reduces an exact
 result to the 64-bit value Go computes, and `Rem` is Go's `%`.
 */
module GoInt {

  /** Number of distinct 64-bit patterns, 2^64. */
  const Modulus: int := 0x1_0000_0000_0000_0000
  /** `math.MinInt64`, -2^63. */
  const MinInt64: int := -0x8000_0000_0000_0000
  /** `math.MaxInt64`, 2^63 - 1. */
  const MaxInt64: int := 0x7fff_ffff_ffff_ffff
  /** 2^62: the largest divisor whose remainders can be doubled without wrapping. */
  const HalfRange: int := 0x4000_0000_0000_0000

  /** The values of Go's `int64`. */
  type Int64 = x: int | MinInt64 <= x <= MaxInt64

  predicate InRange(x: int) {
    MinInt64 <= x <= MaxInt64
  }

  function Abs(x: int): nat {
    if x < 0 then -x else x
  }

  /** `x` is a whole number of `d`s. */
  predicate IsMultiple(x: int, d: int) {
    d > 0 && x % d == 0
  }

  /** `x` and `y` have the same 64-bit two's-complement pattern. */
  predicate Congruent(x: int, y: int) {
    IsMultiple(x - y, Modulus)
  }

  // ---------------------------------------------------------------------
  // Divisibility facts used throughout

  lemma MultipleOfProduct(k: int, d: int)
    requires d > 0
    ensures IsMultiple(k * d, d)
  {
    var q := (k * d) / d;
    var r := (k * d) % d;
    assert d * (k - q) == r;
    if k - q >= 1 {
    } else if k - q <= -1 {
    }
  }

  lemma {:induction false} MultipleSub(a: int, b: int, d: int)
    requires IsMultiple(a, d) && IsMultiple(b, d)
    ensures IsMultiple(a - b, d)
  {
    assert a - b == (a / d - b / d) * d;
    MultipleOfProduct(a / d - b / d, d);
  }

  lemma {:induction false} MultipleAdd(a: int, b: int, d: int)
    requires IsMultiple(a, d) && IsMultiple(b, d)
    ensures IsMultiple(a + b, d)
  {
    assert a + b == (a / d + b / d) * d;
    MultipleOfProduct(a / d + b / d, d);
  }

  /** The only multiple of `d` strictly between `-d` and `d` is zero. */
  lemma SmallMultipleIsZero(x: int, d: int)
    requires IsMultiple(x, d)
    requires -d < x < d
    ensures x == 0
  {
    var q := x / d;
    assert x == d * q;
    if q >= 1 {
    } else if q <= -1 {
    }
  }

  /** Between two consecutive multiples `a` and `a + d` there is no other. */
  lemma NoMultipleBetween(a: int, m: int, d: int)
    requires IsMultiple(a, d) && IsMultiple(m, d)
    ensures m <= a || a + d <= m
  {
    if a < m < a + d {
      MultipleSub(m, a, d);
      SmallMultipleIsZero(m - a, d);
    }
  }

  // ---------------------------------------------------------------------
  // Two's-complement wrap-around

  lemma CongruentTrans(x: int, y: int, z: int)
    requires Congruent(x, y) && Congruent(y, z)
    ensures Congruent(x, z)
  {
    MultipleAdd(x - y, y - z, Modulus);
    assert (x - y) + (y - z) == x - z;
  }

  lemma CongruentSym(x: int, y: int)
    requires Congruent(x, y)
    ensures Congruent(y, x)
  {
    MultipleSub(0, x - y, Modulus);
    assert 0 - (x - y) == y - x;
  }

  /** Adding the same amount to congruent values keeps them congruent. */
  lemma CongruentShift(x: int, y: int, k: int)
    requires Congruent(x, y)
    ensures Congruent(x + k, y + k)
  {
    assert (x + k) - (y + k) == x - y;
  }

  /** The `int64` value Go stores for the exact result `x`. */
  function Wrap(x: int): (r: Int64)
    ensures Congruent(r, x)
    ensures InRange(x) ==> r == x
  {
    var r := (x - MinInt64) % Modulus + MinInt64;
    assert r - x == -((x - MinInt64) / Modulus) * Modulus;
    MultipleOfProduct(-((x - MinInt64) / Modulus), Modulus);
    r
  }

  /** `Wrap` is the one `int64` congruent to its argument: any representable
      value with the same bit pattern is the wrapped value. */
  lemma WrapUnique(x: int, y: int)
    requires InRange(y)
    requires Congruent(y, x)
    ensures Wrap(x) == y
  {
    var w := Wrap(x);
    CongruentSym(w, x);
    CongruentTrans(y, x, w);
    SmallMultipleIsZero(y - w, Modulus);
  }

  /** Congruent exact results wrap to the same `int64`. */
  lemma WrapCongruent(x: int, y: int)
    requires Congruent(x, y)
    ensures Wrap(x) == Wrap(y)
  {
    CongruentTrans(Wrap(x), x, y);
    WrapUnique(y, Wrap(x));
  }

  /** Wrapping an intermediate result and then adding is the same as adding
      and wrapping once: Go's chained `int64` additions compose. */
  lemma WrapAddLeft(x: int, k: int)
    ensures Wrap(Wrap(x) + k) == Wrap(x + k)
  {
    CongruentShift(Wrap(x), x, k);
    WrapCongruent(Wrap(x) + k, x + k);
  }

  lemma WrapAddRight(k: int, x: int)
    ensures Wrap(k + Wrap(x)) == Wrap(k + x)
  {
    WrapAddLeft(x, k);
  }

  /** Go's unary `-x` on `int64`: exact except for `math.MinInt64`, which is
      its own negation. */
  function Neg(x: Int64): (r: Int64)
    ensures x != MinInt64 ==> r == -x
    ensures x == MinInt64 ==> r == MinInt64
  {
    Wrap(-(x as int))
  }

  // ---------------------------------------------------------------------
  // Go's `%`

  /** Go's `t % d` for `d != 0`: the remainder of division truncated toward
      zero, so it takes the sign of the dividend. */
  function Rem(t: Int64, d: Int64): (r: Int64)
    requires d != 0
    ensures Abs(r) < Abs(d)
    ensures Abs(r) <= Abs(t)
    ensures 0 <= t ==> 0 <= r
    ensures t <= 0 ==> r <= 0
    ensures IsMultiple(t - r, Abs(d))
  {
    var a := Abs(d);
    if 0 <= t then
      NaturalRem(t, a);
      t % a
    else
      var n: nat := -(t as int);
      NaturalRem(n, a);
      MultipleSub(0, n - n % a, a);
      assert 0 - (n - n % a) == t - -(n % a);
      -(n % a)
  }

  /** For a non-negative dividend, Go's `%` and Dafny's Euclidean `%` agree. */
  lemma NaturalRem(n: nat, a: int)
    requires a > 0
    ensures 0 <= n % a < a
    ensures n % a <= n
    ensures IsMultiple(n - n % a, a)
  {
    var q := n / a;
    assert n == a * q + n % a;
    assert n - n % a == q * a;
    MultipleOfProduct(q, a);
  }

  /** The Go language specification's characterisation of `%`: `t == q*d + r` with
      `|r| < |d|` and `q` truncated toward zero (so `r` has the sign of `t`)
      determines `r`, and `Rem` is that remainder. */
  lemma RemUnique(t: Int64, d: Int64, r: int)
    requires d != 0
    requires Abs(r) < Abs(d)
    requires 0 <= t ==> 0 <= r
    requires t <= 0 ==> r <= 0
    requires IsMultiple(t - r, Abs(d))
    ensures Rem(t, d) == r
  {
    var g := Rem(t, d);
    MultipleSub(t - r, t - g, Abs(d));
    assert (t - r) - (t - g) == g - r;
    SmallMultipleIsZero(g - r, Abs(d));
  }

  /** A multiple of `d` leaves no remainder. */
  lemma RemOfMultiple(t: Int64, d: Int64)
    requires 0 < d
    requires IsMultiple(t, d)
    ensures Rem(t, d) == 0
  {
    RemUnique(t, d, 0);
  }
}

=== FILE: intended.dfy ===
/**
 `Round` and `Truncate` as their doc comments describe them, next to inputs
 on which the code as written (modelled in `MonoTime`, identically in
 `Time`) does something else.

 The doc comments promise that `Truncate` rounds DOWN to a multiple of `d`
 and that `Round` goes to the NEAREST multiple with halfway values rounding
 UP. The code takes Go's truncating remainder, which is negative for negative
 times, compares the doubled remainder in wrapping arithmetic (which, for
 `d > 2^62`, can send a time of either sign to the far multiple), and sends
 the halfway values of positive times down (those of negative times go toward
 zero, which is up, as documented). The corrected versions use the remainder
 in `[0, d)` and compare `r` with `d - r`, which cannot overflow. For non-negative times
 away from the halfway point they coincide with the code
 (`AgreesWithCodeOnNonNegative`).
 */
module Intended {
  import opened GoInt
  import MonoTime

  /** The remainder of `t` by `d > 0` in `[0, d)`: Go's `t % d`, plus `d` when
      that is negative. */
  function FloorRem(t: Int64, d: Int64): (r: Int64)
    requires 0 < d
    ensures 0 <= r < d
    ensures IsMultiple(t - r, d)
  {
    var r := Rem(t, d);
    if r < 0 then
      MultipleOfProduct(1, d);
      MultipleSub(t - r, d, d);
      r + d
    else
      r
  }

  /** `Truncate` rounding down, as documented: `t - r` with `r` the remainder
      in `[0, d)`; a no-op for `d <= 0`. */
  function Truncate(t: Int64, d: Int64): (r: Int64)
    ensures d <= 0 ==> r == t
  {
    if d <= 0 then t else MonoTime.Add(t, Neg(FloorRem(t, d)))
  }

  /** `Round` to the nearest multiple, halfway values up, as documented: with
      `r` the remainder in `[0, d)`, go down when `r < d - r` and up otherwise;
      a no-op for `d <= 0`. */
  function Round(t: Int64, d: Int64): (r: Int64)
    ensures d <= 0 ==> r == t
  {
    if d <= 0 then
      t
    else
      var rem := FloorRem(t, d);
      if rem < d - rem then MonoTime.Add(t, Neg(rem)) else MonoTime.Add(t, d - rem)
  }

  /** Whenever the multiple of `d` at or below `t` is representable, the
      corrected `Truncate` returns it: the greatest multiple of `d` not above
      `t`, for negative `t` too. */
  lemma TruncateRoundsDown(t: Int64, d: Int64, m: int)
    requires 0 < d
    requires MinInt64 <= t - FloorRem(t, d)
    requires IsMultiple(m, d)
    ensures IsMultiple(Truncate(t, d), d)
    ensures t - d < Truncate(t, d) <= t
    ensures m <= t ==> m <= Truncate(t, d)
  {
    NoMultipleBetween(Truncate(t, d), m, d);
  }

  /** Whenever the multiple of `d` it picks is representable, the corrected
      `Round` returns a nearest multiple of `d`, at most `d/2` away, and of two
      equally near multiples the upper one. */
  lemma RoundNearestHalfUp(t: Int64, d: Int64, m: int)
    requires 0 < d
    requires 2 * FloorRem(t, d) < d ==> MinInt64 <= t - FloorRem(t, d)
    requires 2 * FloorRem(t, d) >= d ==> t - FloorRem(t, d) + d <= MaxInt64
    requires IsMultiple(m, d)
    ensures IsMultiple(Round(t, d), d)
    ensures 2 * Abs(Round(t, d) - t) <= d
    ensures Abs(Round(t, d) - t) <= Abs(m - t)
    ensures Abs(Round(t, d) - t) == Abs(m - t) ==> m <= Round(t, d)
    ensures 2 * FloorRem(t, d) == d ==> t < Round(t, d)
  {
    var lo := t - FloorRem(t, d);
    MultipleAdd(lo, d, d);
    NoMultipleBetween(lo, m, d);
  }

  /** The correction changes nothing the code already gets right: for
      non-negative times `Truncate` is the code's, and so is `Round` unless
      the remainder is exactly half of `d` or too large to double. */
  lemma AgreesWithCodeOnNonNegative(t: Int64, d: Int64)
    requires 0 <= t
    ensures Truncate(t, d) == MonoTime.Truncate(t, d)
    ensures 0 < d && Rem(t, d) < HalfRange && 2 * Rem(t, d) != d ==>
              Round(t, d) == MonoTime.Round(t, d)
  {
    if 0 < d {
      var rem := Rem(t, d);
      if rem < HalfRange {
        assert Wrap(rem * 2) == rem * 2;
      }
    }
  }

  // ---------------------------------------------------------------------
  // Inputs on which the code and its documentation part ways

  /** Halfway: 5 is exactly between the multiples 0 and 10 of 10. The code
      returns 0; the documented rounding (halfway up) gives 10. */
  lemma HalfwayRoundsDown()
    ensures MonoTime.Round(5, 10) == 0
    ensures Round(5, 10) == 10
  {
    assert Rem(5, 10) == 5;
    assert FloorRem(5, 10) == 5;
  }

  /** Halfway, negative side: -5 is exactly between -10 and 0. Go's remainder
      is -5, `r*2 == -d <= d`, and the code returns `t - r`, the upper
      multiple 0, as the documented rounding does. */
  lemma NegativeHalfwayRoundsUp()
    ensures Rem(-5, 10) == -5
    ensures MonoTime.Round(-5, 10) == 0
    ensures Round(-5, 10) == 0
  {
    assert Rem(-5, 10) == -5;
    assert FloorRem(-5, 10) == 5;
  }

  /** Wrapping `r*2`: for `t = MaxInt64 - 1` and `d = MaxInt64` the remainder
      is `t` itself, `r*2` wraps to -4, and the code returns 0, almost a whole
      `d` away, although `d` itself is 1 away. */
  lemma DoubledRemainderWraps()
    ensures Rem(MaxInt64 - 1, MaxInt64) == MaxInt64 - 1
    ensures Wrap(2 * Rem(MaxInt64 - 1, MaxInt64)) == -4
    ensures MonoTime.Round(MaxInt64 - 1, MaxInt64) == 0
    ensures Round(MaxInt64 - 1, MaxInt64) == MaxInt64
  {
  }

  /** Wrapping `r*2`, negative side: for `t = -(2^62 + 1)` and `d = 2^62 + 2`
      the remainder is `t` itself and `r*2` wraps to `2^63 - 2`, above `d`, so
      the code takes `t + (d - r)`. That lands on `d`, across zero and
      `2^63 + 3` away from `t`, although `-d` is 1 away. */
  lemma NegativeDoubledRemainderWraps()
    ensures Rem(-(HalfRange + 1), HalfRange + 2) == -(HalfRange + 1)
    ensures Wrap(2 * Rem(-(HalfRange + 1), HalfRange + 2)) == 2 * HalfRange - 2
    ensures MonoTime.Round(-(HalfRange + 1), HalfRange + 2) == HalfRange + 2
    ensures Round(-(HalfRange + 1), HalfRange + 2) == -(HalfRange + 2)
  {
    assert Rem(-(HalfRange + 1), HalfRange + 2) == -(HalfRange + 1);
    assert FloorRem(-(HalfRange + 1), HalfRange + 2) == 1;
  }

  /** Negative time, `Round`: -9 is 1 from -10 and 9 from 0, but the code's
      remainder is -9 and it returns 0. */
  lemma NegativeRoundsTowardZero()
    ensures MonoTime.Round(-9, 10) == 0
    ensures Round(-9, 10) == -10
  {
    assert Rem(-9, 10) == -9;
    assert FloorRem(-9, 10) == 1;
  }

  /** Negative time, `Truncate`: rounding -9 down to a multiple of 10 gives
      -10, but the code returns 0, above `t`. */
  lemma NegativeTruncatesTowardZero()
    ensures MonoTime.Truncate(-9, 10) == 0
    ensures Truncate(-9, 10) == -10
  {
    assert Rem(-9, 10) == -9;
    assert FloorRem(-9, 10) == 1;
  }
}

=== FILE: monotime.dfy ===
/**
 The `MonoTime` timestamp of the ticker file (main.go): a signed 64-bit count
 of nanoseconds since an arbitrary, boot-chosen zero. `Add`, `Round` and
 `Truncate` take a Go `time.Duration` (also a signed 64-bit nanosecond
 count); `Sub` takes a second timestamp and returns a `time.Duration`. All
 arithmetic is Go's: wrapping `int64` operations and the truncating
 remainder of `GoInt`.

 The functions follow the code as written; the lemmas below state what it
 actually guarantees, including where that differs from its doc comments
 (halfway values of a positive time go to the LOWER multiple, and, when
 `d <= 2^62`, negative times move toward zero, which sends their halfway
 values to the upper multiple as documented).
 */
module MonoTime {
  import opened GoInt

  /** Nanoseconds since the system's monotonic zero. */
  type MonoTime = Int64

  /** Go's `time.Duration`: a signed count of nanoseconds. */
  type Duration = Int64

  /** `t.Add(d)`: `t + d` in wrapping `int64` arithmetic. */
  function Add(t: MonoTime, d: Duration): (r: MonoTime)
    ensures Congruent(r, t + d)
    ensures InRange(t + d) ==> r == t + d
  {
    Wrap(t + d)
  }

  /** `t.Sub(u)`: the duration `t - u`, wrapping like Go. */
  function Sub(t: MonoTime, u: MonoTime): (r: Duration)
    ensures Congruent(r, t - u)
    ensures InRange(t - u) ==> r == t - u
  {
    Wrap(t - u)
  }

  /** `t.Round(d)`, as written: with `r := t % d`, take `t - r` when the
      wrapped `r*2` is at most `d`, else `t + (d - r)`; a no-op for `d <= 0`. */
  function Round(t: MonoTime, d: Duration): (r: MonoTime)
    ensures d <= 0 ==> r == t
    ensures 0 < d ==> r == Truncate(t, d) || r == Wrap(Truncate(t, d) + d)
  {
    if d <= 0 then
      t
    else
      var rem := Rem(t, d);
      assert Truncate(t, d) == t - rem;
      if Wrap(rem * 2) <= d then
        Add(t, Neg(rem))
      else
        WrapAddRight(t, d - rem);
        assert t + (d - rem) == Truncate(t, d) + d;
        Add(t, Wrap(d - rem))
  }

  /** `t.Truncate(d)`: `t - t % d` with Go's truncating `%`; a no-op for
      `d <= 0`. The subtraction never wraps, and the result is the multiple of
      `d` between zero and `t` that lies closest to `t`. */
  function Truncate(t: MonoTime, d: Duration): (r: MonoTime)
    ensures d <= 0 ==> r == t
    ensures 0 < d ==> IsMultiple(r, d)
    ensures 0 < d ==> Abs(t - r) < d
    ensures 0 < d && 0 <= t ==> 0 <= r <= t
    ensures 0 < d && t <= 0 ==> t <= r <= 0
  {
    if d <= 0 then t else Add(t, Neg(Rem(t, d)))
  }

  // ---------------------------------------------------------------------
  // Add and Sub

  /** Adding a duration and subtracting the start recovers the duration
      exactly, overflow or not. */
  lemma AddSubInverse(t: MonoTime, d: Duration)
    ensures Sub(Add(t, d), t) == d
  {
    WrapAddLeft(t + d, -(t as int));
    assert (t as int) + d - t == d;
  }

  /** Adding `u.Sub(t)` to `t` lands exactly on `u`, overflow or not. */
  lemma SubAddInverse(t: MonoTime, u: MonoTime)
    ensures Add(t, Sub(u, t)) == u
  {
    WrapAddRight(t, u - t);
    assert t + (u - t) == u;
  }

  /** The documented way to step back by a duration: `t.Add(-d)` is the
      wrapped `t - d`, for every `d` including `math.MinInt64`, whose Go
      negation is itself. */
  lemma AddNegIsSub(t: MonoTime, d: Duration)
    ensures Add(t, Neg(d)) == Wrap(t - d)
    ensures Add(t, Neg(d)) == Sub(t, d)
  {
    WrapAddRight(t, -(d as int));
    assert t + -(d as int) == t - d;
  }

  /** The exact (unbounded) sum of a series of durations. */
  function Total(ds: seq<Duration>): int {
    if |ds| == 0 then 0 else Total(ds[..|ds| - 1]) + ds[|ds| - 1]
  }

  /** `t.Add(ds[0]).Add(ds[1])...`: a timestamp advanced by each duration in
      turn. However often the intermediate sums wrap, the result is the
      single wrapped sum of `t` and all the durations. */
  function AddEach(t: MonoTime, ds: seq<Duration>): (r: MonoTime)
    ensures r == Wrap(t + Total(ds))
  {
    if |ds| == 0 then
      t
    else
      var prefix := ds[..|ds| - 1];
      WrapAddLeft(t + Total(prefix), ds[|ds| - 1]);
      Add(AddEach(t, prefix), ds[|ds| - 1])
  }

  /** The time elapsed over a series of `Add`s, as measured by `Sub`, is the
      wrapped total of the durations, and exactly the total when that fits. */
  lemma ElapsedIsTotal(t: MonoTime, ds: seq<Duration>)
    ensures Sub(AddEach(t, ds), t) == Wrap(Total(ds))
    ensures InRange(Total(ds)) ==> Sub(AddEach(t, ds), t) == Total(ds)
  {
    var a := AddEach(t, ds);
    assert a == Wrap(t + Total(ds));
    WrapAddLeft(t + Total(ds), -(t as int));
    assert (t as int) + Total(ds) - t == Total(ds);
    assert Sub(a, t) == Wrap(Wrap(t + Total(ds)) - t);
  }

  // ---------------------------------------------------------------------
  // Truncate

  /** `Truncate` picks the extreme multiple on `t`'s side of zero: no multiple
      of `d` lies strictly between `Truncate(t, d)` and `t`. For `t >= 0` it
      is the greatest multiple at or below `t` (it rounds down); for `t <= 0`
      it is the least multiple at or above `t` (it rounds toward zero). */
  lemma TruncateIsClosestTowardZero(t: MonoTime, d: Duration, m: int)
    requires 0 < d
    requires IsMultiple(m, d)
    ensures 0 <= t && m <= t ==> m <= Truncate(t, d)
    ensures t <= 0 && t <= m ==> Truncate(t, d) <= m
  {
    var tr := Truncate(t, d);
    NoMultipleBetween(tr, m, d);
    NoMultipleBetween(m, tr, d);
  }

  /** Truncating an already truncated time changes nothing. */
  lemma TruncateIdempotent(t: MonoTime, d: Duration)
    ensures Truncate(Truncate(t, d), d) == Truncate(t, d)
  {
    if 0 < d {
      RemOfMultiple(Truncate(t, d), d);
    }
  }

  // ---------------------------------------------------------------------
  // Round

  /** For a non-negative time whose next multiple of `d` is representable,
      `Round` returns a multiple of `d` no more than `d/2` away from `t`; at an
      exact halfway point it returns the LOWER multiple `t - t%d` (the doc
      comment promises the upper one). */
  lemma RoundNonNegative(t: MonoTime, d: Duration)
    requires 0 < d && 0 <= t
    requires t + d <= MaxInt64
    ensures IsMultiple(Round(t, d), d)
    ensures 2 * Abs(Round(t, d) - t) <= d
    ensures 2 * Rem(t, d) <= d ==> Round(t, d) == Truncate(t, d)
    ensures 2 * Rem(t, d) > d ==> Round(t, d) == Truncate(t, d) + d
  {
    var rem := Rem(t, d);
    assert Wrap(rem * 2) == rem * 2;
    MultipleAdd(t - rem, d, d);
  }

  /** Under the conditions of `RoundNonNegative`, no multiple of `d` is closer
      to `t` than `Round(t, d)`. */
  lemma RoundIsNearest(t: MonoTime, d: Duration, m: int)
    requires 0 < d && 0 <= t
    requires t + d <= MaxInt64
    requires IsMultiple(m, d)
    ensures Abs(Round(t, d) - t) <= Abs(m - t)
  {
    RoundNonNegative(t, d);
    NoMultipleBetween(Truncate(t, d), m, d);
  }

  /** When `d <= 2^62` the doubled remainder cannot wrap, and `Round` is
      exactly: `Truncate` when the remainder is at most half of `d`, else one
      more `d` (wrapping if that passes `math.MaxInt64`). */
  lemma RoundViaTruncate(t: MonoTime, d: Duration)
    requires 0 < d <= HalfRange
    ensures 2 * Rem(t, d) <= d ==> Round(t, d) == Truncate(t, d)
    ensures 2 * Rem(t, d) > d ==> Round(t, d) == Wrap(Truncate(t, d) + d)
  {
    var rem := Rem(t, d);
    assert Wrap(rem * 2) == rem * 2;
    WrapAddRight(t, d - rem);
    assert t + (d - rem) == (t - rem) + d;
  }

  /** For a negative time, and `d <= 2^62`, the remainder is never positive,
      so `Round` is `Truncate`: it moves toward zero, never to a nearer
      multiple below `t`. */
  lemma RoundNegativeTowardZero(t: MonoTime, d: Duration)
    requires 0 < d <= HalfRange
    requires t < 0
    ensures Round(t, d) == Truncate(t, d)
    ensures t <= Round(t, d) <= 0
  {
    RoundViaTruncate(t, d);
  }

  /** Rounding up past the top of the range wraps: the multiple above
      `math.MaxInt64` that `Round` chooses comes back as `math.MinInt64`. */
  lemma RoundWrapsAtTop()
    ensures Round(MaxInt64, HalfRange) == MinInt64
  {
    assert Rem(MaxInt64, HalfRange) == HalfRange - 1;
  }
}

=== FILE: time.dfy ===
/**
 The `Time` timestamp of mono.go: the same signed 64-bit nanosecond count as
 `MonoTime`, with its own copies of `Add`, `Sub`, `Round` and `Truncate`.

 Each operation is written here from mono.go on its own; `AgreesWithMonoTime`
 proves that every one of them computes exactly what the same-named
 operation of `MonoTime` computes, and the properties of mono.go's `Time`
 are then carried over from the ones proved in `MonoTime`.
 */
module Time {
  import opened GoInt
  import MonoTime

  /** Nanoseconds since the system's monotonic zero. */
  type Time = Int64

  /** Go's `time.Duration`: a signed count of nanoseconds. */
  type Duration = Int64

  /** `t.Add(d)`: `t + d` in wrapping `int64` arithmetic. */
  function Add(t: Time, d: Duration): (r: Time)
    ensures Congruent(r, t + d)
    ensures InRange(t + d) ==> r == t + d
  {
    Wrap(t + d)
  }

  /** `t.Sub(u)`: the duration `t - u`, wrapping like Go. */
  function Sub(t: Time, u: Time): (r: Duration)
    ensures Congruent(r, t - u)
    ensures InRange(t - u) ==> r == t - u
  {
    Wrap(t - u)
  }

  /** `t.Round(d)`: with `r := t % d`, take `t - r` when the wrapped `r*2` is
      at most `d`, else `t + (d - r)`; a no-op for `d <= 0`. */
  function Round(t: Time, d: Duration): (r: Time)
    ensures d <= 0 ==> r == t
  {
    if d <= 0 then
      t
    else
      var rem := Rem(t, d);
      if Wrap(rem * 2) <= d then Add(t, Neg(rem)) else Add(t, Wrap(d - rem))
  }

  /** `t.Truncate(d)`: `t - t % d` with Go's truncating `%`; a no-op for
      `d <= 0`. */
  function Truncate(t: Time, d: Duration): (r: Time)
    ensures d <= 0 ==> r == t
  {
    if d <= 0 then t else Add(t, Neg(Rem(t, d)))
  }

  /** mono.go's `Time` and main.go's `MonoTime` are interchangeable: all
      four operations agree on every input. */
  lemma AgreesWithMonoTime(t: Time, u: Time, d: Duration)
    ensures Add(t, d) == MonoTime.Add(t, d)
    ensures Sub(t, u) == MonoTime.Sub(t, u)
    ensures Round(t, d) == MonoTime.Round(t, d)
    ensures Truncate(t, d) == MonoTime.Truncate(t, d)
  {
  }

  /** Adding a duration and subtracting the start recovers the duration
      exactly, overflow or not. */
  lemma AddSubInverse(t: Time, d: Duration)
    ensures Sub(Add(t, d), t) == d
  {
    AgreesWithMonoTime(t, t, d);
    AgreesWithMonoTime(Add(t, d), t, d);
    MonoTime.AddSubInverse(t, d);
  }

  /** Adding `u.Sub(t)` to `t` lands exactly on `u`, overflow or not. */
  lemma SubAddInverse(t: Time, u: Time)
    ensures Add(t, Sub(u, t)) == u
  {
    AgreesWithMonoTime(u, t, 0);
    AgreesWithMonoTime(t, t, Sub(u, t));
    MonoTime.SubAddInverse(t, u);
  }

  /** For `d > 0`, `Truncate` returns a multiple of `d` between zero and `t`,
      less than `d` away from `t`, and no multiple of `d` lies strictly between
      it and `t`: it rounds down only when `t >= 0`, and toward zero below. */
  lemma TruncateBounds(t: Time, d: Duration, m: int)
    requires 0 < d
    requires IsMultiple(m, d)
    ensures IsMultiple(Truncate(t, d), d)
    ensures Abs(t - Truncate(t, d)) < d
    ensures 0 <= t ==> 0 <= Truncate(t, d) <= t
    ensures t <= 0 ==> t <= Truncate(t, d) <= 0
    ensures 0 <= t && m <= t ==> m <= Truncate(t, d)
    ensures t <= 0 && t <= m ==> Truncate(t, d) <= m
  {
    AgreesWithMonoTime(t, t, d);
    MonoTime.TruncateIsClosestTowardZero(t, d, m);
  }

  /** Truncating an already truncated time changes nothing. */
  lemma TruncateIdempotent(t: Time, d: Duration)
    ensures Truncate(Truncate(t, d), d) == Truncate(t, d)
  {
    AgreesWithMonoTime(t, t, d);
    AgreesWithMonoTime(Truncate(t, d), t, d);
    MonoTime.TruncateIdempotent(t, d);
  }

  /** For a non-negative time whose next multiple of `d` is representable,
      `Round` returns the multiple of `d` nearest to `t`, at most `d/2` away;
      an exact halfway value goes to the lower multiple. */
  lemma RoundNonNegative(t: Time, d: Duration, m: int)
    requires 0 < d && 0 <= t
    requires t + d <= MaxInt64
    requires IsMultiple(m, d)
    ensures IsMultiple(Round(t, d), d)
    ensures 2 * Abs(Round(t, d) - t) <= d
    ensures Abs(Round(t, d) - t) <= Abs(m - t)
    ensures 2 * Rem(t, d) == d ==> Round(t, d) == t - Rem(t, d)
  {
    AgreesWithMonoTime(t, t, d);
    MonoTime.RoundNonNegative(t, d);
    MonoTime.RoundIsNearest(t, d, m);
  }
}
